=== FILE: README.md ===
# Trunk asset pipelines, modelled in Dafny

This project models the asset-pipeline core of the Trunk web bundler. Trunk
reads build directives from an HTML shell, hands each one to the pipeline
that owns it, runs the pipelines, and rewrites the document. The model covers
three pieces.

- **`Chain<A, B>`** (`chain.dfy`, module `ChainPipeline`). It tries pipeline
  `A` first. It tries `B` only when `A` answers "not mine", and then it gives
  `B` the input that `A` handed back. Successes are tagged `First` or
  `Second`. Finalizing a chained output delegates to the pipeline that
  produced it.
- **The copy-dir pipeline** (`copy_dir.dfy`, module `CopyDirPipeline`). This
  covers converting a directive, queueing it, the checks made before copying,
  batch execution in queue order, and removing the directive's element once
  the copy is done.
- **`parse_public_url`** (`common.dfy`, module `Common`). It makes sure the
  `--public-url` value has a leading and a trailing `/`.

The support modules are these:

- `paths.dfy` (`Paths`) models Rust paths on Unix. A path is a root flag plus
  its components, as `Path::components` yields them. It also models
  `str::split`, `Path::join`, `PathBuf::extend`, the component-wise
  `Path::starts_with` and `Path::file_name`.
- `assets.dfy` (`Assets`) holds the directive (`AssetInput`), the error
  reasons and the three-way `Outcome`: `Ok`, `NotMatched(input)` or
  `Failed(reason)`. Rust carries "not mine" inside its error channel as
  `ErrorReason::AssetNotMatched { input }`. It also holds the document and the
  `Asset` record of pipeline capabilities. Through that record a chain can
  nest inside a chain.
- `wrappers.dfy` (`Wrappers`) holds `Option`.

Two places where the code does less than its own doc comments and guards
suggest. The model follows the code in both.

- **A `..` target path is not rejected.** The `target_path` field is
  documented as a target path inside the output directory
  (crates/pipelines/src/assets/copy_dir/mod.rs:27), which promises that the
  target stays inside it. The error raised when the check fails is named
  `PipelineLinkDataTargetPathRelativeExpected`
  (crates/pipelines/src/assets/copy_dir/mod.rs:117), which only expects a
  relative target. `../escape` is relative, so the name agrees with the
  code, and only the doc comment promises containment. The check compares the
  un-normalised `output_dir.join(target)` with the component-wise
  `starts_with` (crates/pipelines/src/assets/copy_dir/mod.rs:114-116). That
  rejects only absolute targets outside the output directory
  (`TargetPathCheck`). A `../escape` target passes, and the copy goes to
  `<output_dir>/../escape` (`ParentTargetPassesCheck`).
- **An `href` with a leading `/` is not absolute.** The guard
  `if !path.is_absolute()` (crates/pipelines/src/assets/copy_dir/mod.rs:49)
  joins the path onto the manifest directory only when it is relative. So an
  absolute `href` was meant to be used as it is. But the path is built with
  `PathBuf::extend(href.split('/'))` (crates/pipelines/src/assets/copy_dir/mod.rs:47-48).
  A leading `/` gives an empty first part, and pushing that part onto an
  empty `PathBuf` leaves it relative. So the built path is never absolute,
  the guard always takes the join branch, and every `href` is resolved under
  the manifest directory (`BuiltFromSegmentsIsRelative`,
  `RootedHrefResolvedUnderManifestDir`).

## Model

| member | source | states |
|---|---|---|
| `Paths.Split` | crates/pipelines/src/assets/copy_dir/mod.rs:48 | splitting `href` on `/` gives at least one part, and no part contains `/` |
| `Paths.SplitRoundTrip` | crates/pipelines/src/assets/copy_dir/mod.rs:48 | joining the parts back with `/` gives the original `href`, so splitting loses nothing |
| `Paths.PathOf` | crates/pipelines/src/assets/copy_dir/mod.rs:52-55 | `Path::new(s)`, used for the target path and for every part pushed at line 48, is rooted exactly when `s` starts with `/`; no component is empty, `.` or contains `/` |
| `Paths.Extend` | crates/pipelines/src/assets/copy_dir/mod.rs:47-48 | a rooted path stays rooted, and a relative path becomes rooted only by pushing a part that starts with `/` |
| `Paths.StartsWith` | crates/pipelines/src/assets/copy_dir/mod.rs:116 | `Path::starts_with` is reflexive; the empty path is a prefix of every path, rooted or not; a rooted base is a prefix only of rooted paths, and a non-empty relative base only of relative paths; it holds whenever the path has the base's root and the base's components are a prefix of the path's, and when it holds, the base's components are a prefix of the path's |
| `Paths.ExtendWithParts` | crates/pipelines/src/assets/copy_dir/mod.rs:47-48 | pushing `/`-free parts onto a path appends their non-empty, non-`.` parts and never changes whether the path is rooted |
| `Paths.BuiltFromSegmentsIsRelative` | crates/pipelines/src/assets/copy_dir/mod.rs:47-49 | the path built from `href.split('/')` is never absolute, even for an `href` that starts with `/` |
| `Paths.JoinStartsWith` | crates/pipelines/src/assets/copy_dir/mod.rs:114-116 | `base.join(p)` starts with `base` exactly when `p` is relative or `p` already starts with `base`; `..` in a relative `p` is never noticed; with an empty `base` every `p` passes, absolute ones included |
| `CopyDirPipeline.TryFrom` | crates/pipelines/src/assets/copy_dir/mod.rs:34-62 | not-matched exactly when `rel` is missing or is not `copy-dir`, and then the directive comes back unchanged; `PipelineLinkHrefNotFound("copy-dir")` exactly when `rel` matches and `href` is missing; on success the path is the manifest directory followed by the parts of `href`, the target path is `data-target-path` verbatim (or none), and the directive is kept intact |
| `CopyDirPipeline.RootedHrefResolvedUnderManifestDir` | crates/pipelines/src/assets/copy_dir/mod.rs:47-51 | an `href` that starts with `/` still gives a source path under the manifest directory |
| `CopyDirPipeline.PlanCopy` | crates/pipelines/src/assets/copy_dir/mod.rs:97-121 | `FsNotExist(path)` exactly when canonicalisation fails; `PathNoFileStem(canonical)` when the canonical path has no final segment; on success the copy goes from the canonical path to `output_dir` joined with the target path or with the directory name, and the destination passes the prefix check |
| `CopyDirPipeline.DirNameStaysInside` | crates/pipelines/src/assets/copy_dir/mod.rs:103-116 | without a target path the run always passes the prefix check, and the destination is the source directory's name directly under `output_dir` |
| `CopyDirPipeline.TargetPathCheck` | crates/pipelines/src/assets/copy_dir/mod.rs:109-121 | with a target path the run fails with `PipelineLinkDataTargetPathRelativeExpected(target)` exactly when the target is absolute and not under `output_dir`; otherwise the destination is `output_dir.join(target)` |
| `CopyDirPipeline.ParentTargetPassesCheck` | crates/pipelines/src/assets/copy_dir/mod.rs:114-121 | a target path `../escape` passes the check, and the copy is aimed at `output_dir/../escape` |
| `CopyDirPipeline.RunWithInput` | crates/pipelines/src/assets/copy_dir/mod.rs:93-127 | succeeds exactly when the checks pass and the recursive copy of the planned source to the planned destination succeeds; a success carries the directive's id; a failed check is reported unchanged, and so is an error from the recursive copy; the result is never not-matched |
| `CopyDirPipeline.NoCopyWhenPlanFails` | crates/pipelines/src/assets/copy_dir/mod.rs:97-123 | when a check fails, the copy primitive cannot influence the result, so no copy is attempted |
| `CopyDirPipeline.RunOnce` | crates/pipelines/src/assets/copy_dir/mod.rs:146-150 | not-matched exactly for directives of another kind, which come back unchanged; a missing `href` gives `PipelineLinkHrefNotFound("copy-dir")`; a success carries the directive's id; once conversion succeeds, the result is exactly that of `run_with_input` on the converted input |
| `CopyDirPipeline.PushInput` | crates/pipelines/src/assets/copy_dir/mod.rs:138-144 | the queue grows by exactly the converted input, at the end, exactly when conversion succeeds; otherwise the queue is unchanged and the conversion's error is returned |
| `CopyDirPipeline.Batch` | crates/pipelines/src/assets/copy_dir/mod.rs:152-165 | one result per queued input, in queue order; each success carries the id of the input at its position; a task that did not complete is `TokioTaskFailed`; a task that completed yields exactly `run_with_input` of the input at its position |
| `CopyDirPipeline.BatchIdsInSubmissionOrder` | crates/pipelines/src/assets/copy_dir/mod.rs:152-165 | when every task completes and every copy succeeds, the ids of the results are the submission ids, in submission order |
| `CopyDirPipeline.RemoveTrunkId` | crates/pipelines/src/assets/copy_dir/mod.rs:173-176 | after removal, an element is in the document exactly when it was there before and does not carry the output's id |
| `CopyDirPipeline.RemoveTrunkIdAppend` | crates/pipelines/src/assets/copy_dir/mod.rs:174 | removal works element by element (it distributes over concatenation), so the remaining elements keep their order |
| `CopyDirPipeline.RemoveTrunkIdKeepsOthers` | crates/pipelines/src/assets/copy_dir/mod.rs:174 | every element without the output's id keeps its number of occurrences |
| `CopyDirPipeline.Finalize` | crates/pipelines/src/assets/copy_dir/mod.rs:173-176 | the document afterwards is the old document without the elements that carry the output's id; the result is `Ok` |
| `CopyDirPipeline.CopyDirAsset` | crates/pipelines/src/assets/copy_dir/mod.rs:131-166 | the copy-dir pipeline, packaged as an `Asset`, follows the rejection protocol: it hands back rejected directives unchanged, and a rejected claim leaves its queue unchanged |
| `CopyDirPipeline.CopyDir.constructor` | crates/pipelines/src/assets/copy_dir/mod.rs:84-89 | a new pipeline has an empty queue and the given output directory |
| `CopyDirPipeline.CopyDir.TryPushInput` | crates/pipelines/src/assets/copy_dir/mod.rs:138-144 | on success the queue becomes the old queue plus the converted input at the end; on any error the queue is unchanged and the error is the conversion's |
| `CopyDirPipeline.CopyDir.Outputs` | crates/pipelines/src/assets/copy_dir/mod.rs:152-165 | the loop over the queue yields exactly `Batch` of the queue: one result per input, in queue order |
| `ChainPipeline.RunOnceChain` | crates/pipelines/src/assets/chain.rs:32-48 | the chain succeeds with `First(o)` exactly when the first pipeline succeeds with `o`, and with `Second(o)` exactly when the first says not-matched and the second succeeds with `o` on the handed-back input; it says not-matched exactly when both do, handing back what the second handed back; a failure is the first pipeline's if it failed, otherwise the second's |
| `ChainPipeline.FirstAccepts` | crates/pipelines/src/assets/chain.rs:32-35 | when the first pipeline succeeds with `o`, the chain returns `First(o)` |
| `ChainPipeline.FallsBackOnNotMatched` | crates/pipelines/src/assets/chain.rs:37-43 | when the first pipeline says not-matched, the chain returns the second pipeline's result on the handed-back input, with success tagged `Second` and failure as it is |
| `ChainPipeline.FailurePropagates` | crates/pipelines/src/assets/chain.rs:44 | any genuine failure of the first pipeline is the chain's result, verbatim |
| `ChainPipeline.SecondNotConsulted` | crates/pipelines/src/assets/chain.rs:32-47 | unless the first pipeline says not-matched, replacing the second pipeline and its state does not change the chain's result |
| `ChainPipeline.BothDecline` | crates/pipelines/src/assets/chain.rs:36-43 | if both pipelines follow the rejection protocol and both decline, the chain declines with the original input |
| `ChainPipeline.TryPushChain` | crates/pipelines/src/assets/chain.rs:57-65 | the first pipeline always makes its claim; the second is offered the handed-back input only after not-matched, and its result is then the chain's; otherwise the second's state is unchanged, success is `Ok` and a failure is returned verbatim |
| `ChainPipeline.Merge` | crates/pipelines/src/assets/chain.rs:51-54 | merging two streams yields as many items as both streams together |
| `ChainPipeline.Select` | crates/pipelines/src/assets/chain.rs:51-54 | the loop that repeatedly takes from whichever stream is ready yields exactly `Merge` of the two streams |
| `ChainPipeline.MergeKeepsEachOrder` | crates/pipelines/src/assets/chain.rs:51-54 | the items of the merge that came from the first stream are that stream, in its order, and likewise for the second |
| `ChainPipeline.MergeHasBoth` | crates/pipelines/src/assets/chain.rs:51-54 | the merge contains exactly the items of both streams (as multisets) |
| `ChainPipeline.MergeTagsBySource` | crates/pipelines/src/assets/chain.rs:52-53 | every success in the merged stream is tagged `First` exactly when it came from the first pipeline's stream |
| `ChainPipeline.ChainReturnsRejected` | crates/pipelines/src/assets/chain.rs:32-65 | chaining two pipelines that follow the rejection protocol gives a pipeline that follows it too, so chains nest |
| `ChainPipeline.Chain.constructor` | crates/pipelines/src/assets/chain.rs:15-18 | the chain holds the two given pipelines in the given states |
| `ChainPipeline.Chain.RunOnce` | crates/pipelines/src/assets/chain.rs:32-48 | the result on the chain's current states is `RunOnceChain`'s, so the routing lemmas above apply to it |
| `ChainPipeline.Chain.TryPushInput` | crates/pipelines/src/assets/chain.rs:57-65 | the new states and the result follow the fallback policy; the second pipeline's state is untouched unless the first said not-matched |
| `ChainPipeline.Chain.Outputs` | crates/pipelines/src/assets/chain.rs:50-55 | yields every item of both pipelines' streams; the items from each pipeline appear in that pipeline's order; successes are tagged by their origin |
| `ChainPipeline.Finalize` | crates/pipelines/src/assets/chain.rs:89-94 | finalizing `First(x)` has exactly the effect and result of the first pipeline's finalize of `x`, and likewise for `Second` |
| `Common.ParsePublicUrl` | src/common.rs:16-20 | the result starts and ends with `/`; its length is that of the input plus one for each missing slash; the input sits unchanged after the optional leading slash |
| `Common.AlreadyFormatted` | src/common.rs:17-19 | a value that already starts and ends with `/` is returned unchanged |
| `Common.Idempotent` | src/common.rs:16-20 | applying the function to its own result changes nothing |
| `Common.OnlySlashesAdded` | src/common.rs:16-19 | the result is an optional `/`, then the input, then an optional `/` |
| `Common.EmptyIsDoubleSlash` | src/common.rs:17-19 | the empty value maps to `//` |

Some definitions have no row of their own, because their behaviour is stated
by the rows of the members that use them:
- `Paths.Join` (`Path::join`) is covered by `Paths.JoinStartsWith`, `CopyDirPipeline.TryFrom` and `CopyDirPipeline.PlanCopy`.
- `Paths.FileName` (`Path::file_name`) is covered by `CopyDirPipeline.PlanCopy` and `CopyDirPipeline.DirNameStaysInside`.
- `CopyDirPipeline.TaskResult` (the task-join mapping) is covered by `CopyDirPipeline.Batch`.
- `ChainPipeline.TagFirst`, `TagSecond`, `TagAllFirst` and `TagAllSecond` (the `map_ok` tagging) are covered by `ChainPipeline.RunOnceChain`, `ChainPipeline.Chain.Outputs` and `ChainPipeline.MergeTagsBySource`.
- `ChainPipeline.FinalizeChain` is covered by `ChainPipeline.Finalize`.
- `ChainPipeline.ChainAsset` is covered by `ChainPipeline.ChainReturnsRejected`.

## Left out

- `Chain::spawn` is `todo!()` in the source (crates/pipelines/src/assets/chain.rs:67-69). It is not modelled.
- The async runtime is not modelled. This covers `tokio::spawn`, `.then` and the awaits in `outputs`, and `async_trait`, `Arc` and the `Send`/`Sync` bounds. `CopyDir.Outputs` runs the queue in order. An oracle `joined(k)` says whether the task for the k-th input ran to completion.
- `stream::select` readiness is an oracle `ready(step)`. It says whether the first stream has its next item ready at that step. Any interleaving can be produced this way. Only length, membership, per-stream order and tagging are proved about it.
- `fs::canonicalize` and `copy_dir_recursive` are oracles in `Fs`, and either may fail. An error from `copy_dir_recursive` is passed on as whatever reason it reports. Nothing is modelled about what ends up on disk.
- The nipper `Document` is a flat sequence of elements, each with an optional trunk id. HTML nesting and CSS selector matching are not modelled.
- `tracing` calls and `crate::util::strip_prefix` are logging only. They are not modelled.
- `ErrorReason` has only the variants this core produces, plus `Io` for errors reported by the filesystem primitives. The `Error` wrapper and its chain of source errors are not modelled.
- `CopyDirConfig` is reduced to the output directory it exposes.
- `outputs(self)` consumes the pipeline by move. Here `CopyDir.Outputs` and `Chain.Outputs` read the state and leave the object in place.
- A chain's sub-pipelines are each modelled as a record of behaviours (`Asset`) plus a state value, not as trait objects.
- Paths use Unix semantics. Windows prefixes and verbatim paths are not modelled. A `.` component is dropped wherever it appears, while Rust keeps a leading `.` of a relative path as `CurDir`.
- Paths.JoinStartsWith: because a leading `.` is dropped, a base of exactly `.` is treated like the empty path. Every path starts with the empty path, so `Path::new(".").join("/x")` starts with the base in the model. In Rust it does not, because `/x` has no `CurDir` component.
- CopyDirPipeline.TargetPathCheck: for the same reason, an output directory of exactly `.` is treated like the empty output directory. The model then lets an absolute target such as `/x` through, and Rust rejects it with `PipelineLinkDataTargetPathRelativeExpected`. For the empty output directory itself, and for every other output directory, the model agrees with Rust.
- The `ATTR_REL` and `ATTR_HREF` constants are defined in the utility module, which is not part of this model. They are taken to be `rel` and `href`.
- The `Emoji` statics in src/common.rs:8-13 are UI constants and are not modelled. crates/pipelines/src/lib.rs holds only module declarations and re-exports.
- Element ids are `usize` in the source and unbounded naturals here. No arithmetic is done on them.

=== FILE: assets.dfy ===
/**
 * What every asset pipeline shares: the directive it is handed, the reasons it
 * can fail for, the document its outputs finalise against, and the capability
 * set (`Asset`) that lets pipelines be composed without knowing each other.
 */
module Assets {
  import opened Wrappers
  import opened Paths

  /** One build directive found in the HTML shell. */
  datatype AssetInput = AssetInput(id: nat, manifestDir: Path, attrs: map<string, string>)

  /** The genuine failures a pipeline reports. */
  datatype ErrorReason =
    | PipelineLinkHrefNotFound(rel: string)
    | FsNotExist(path: Path)
    | PathNoFileStem(path: Path)
    | PipelineLinkDataTargetPathRelativeExpected(path: Path)
    | TokioTaskFailed
    | Io(message: string)

  /**
   * The outcome of offering an input to a pipeline: handled, "not mine" (the
   * input handed back untouched), or a genuine failure. Rust folds the middle
   * case into its error channel as `ErrorReason::AssetNotMatched { input }`.
   */
  datatype Outcome<T> = Ok(value: T) | NotMatched(input: AssetInput) | Failed(reason: ErrorReason)
  {
    /** Re-types a non-success outcome, keeping what it carries. */
    function Cast<U>(): Outcome<U>
      requires !Ok?
    {
      if NotMatched? then NotMatched(input) else Failed(reason)
    }
  }

  /** An element of the output document; directives carry the id they were scanned with. */
  datatype Element = Element(tag: string, trunkId: Option<nat>)

  /** The output document, mutated in place by every finalize call of a build. */
  class Document {
    var elements: seq<Element>

    constructor (elements: seq<Element>)
      ensures this.elements == elements
    {
      this.elements := elements;
    }
  }

  /**
   * The capability set of a pipeline whose state is `S` and whose output is `O`:
   * run one input, claim one input into the state, drain the state into results,
   * and finalise one output against the document's elements.
   */
  datatype Asset<!S, !O> = Asset(
    runOnce: (S, AssetInput) -> Outcome<O>,
    tryPushInput: (S, AssetInput) -> (S, Outcome<()>),
    outputs: S -> seq<Outcome<O>>,
    finalize: (O, seq<Element>) -> (seq<Element>, Outcome<()>))

  /**
   * The rejection protocol: a pipeline that does not own an input hands back
   * exactly that input, and claiming it leaves the pipeline's state as it was.
   */
  ghost predicate ReturnsRejected<S(!new), O>(asset: Asset<S, O>)
  {
    (forall s, i :: asset.runOnce(s, i).NotMatched? ==> asset.runOnce(s, i).input == i) &&
    (forall s, i :: asset.tryPushInput(s, i).1.NotMatched? ==> asset.tryPushInput(s, i).0 == s && asset.tryPushInput(s, i).1 == NotMatched(i))
  }
}

=== FILE: chain.dfy ===
/**
 * `Chain<A, B>`: two pipelines composed with ordered fallback. The second
 * pipeline is offered an input only when the first hands it back as "not
 * mine", and then it is offered the input the first handed back. Every other
 * outcome of the first pipeline is final.
 */
module ChainPipeline {
  import opened Assets

  /** The output of a chain: exactly one of the two pipelines produced it. */
  datatype ChainOutput<OA, OB> = First(first: OA) | Second(second: OB)

  /** `map_ok(ChainOutput::First)`: only a success is tagged, failures pass through. */
  function TagFirst<OA, OB>(r: Outcome<OA>): Outcome<ChainOutput<OA, OB>>
  {
    if r.Ok? then Ok(First(r.value)) else r.Cast()
  }

  /** `map_ok(ChainOutput::Second)`. */
  function TagSecond<OA, OB>(r: Outcome<OB>): Outcome<ChainOutput<OA, OB>>
  {
    if r.Ok? then Ok(Second(r.value)) else r.Cast()
  }

  /** `map_ok(ChainOutput::First)` over a whole stream. */
  function TagAllFirst<OA, OB>(rs: seq<Outcome<OA>>): seq<Outcome<ChainOutput<OA, OB>>>
  {
    seq(|rs|, k requires 0 <= k < |rs| => TagFirst(rs[k]))
  }

  /** `map_ok(ChainOutput::Second)` over a whole stream. */
  function TagAllSecond<OA, OB>(rs: seq<Outcome<OB>>): seq<Outcome<ChainOutput<OA, OB>>>
  {
    seq(|rs|, k requires 0 <= k < |rs| => TagSecond(rs[k]))
  }

  /**
   * `run_once` of a chain whose pipelines are `a` in state `sa` and `b` in state
   * `sb`: a success is tagged by the pipeline that produced it, the second
   * pipeline only ever sees the input the first handed back, and the chain says
   * "not mine" only when both did.
   */
  function RunOnceChain<SA, OA, SB, OB>(a: Asset<SA, OA>, b: Asset<SB, OB>, sa: SA, sb: SB, input: AssetInput)
    : (r: Outcome<ChainOutput<OA, OB>>)
    ensures r.Ok? && r.value.First? <==> a.runOnce(sa, input).Ok?
    ensures r.Ok? && r.value.First? ==> r.value.first == a.runOnce(sa, input).value
    ensures r.Ok? && r.value.Second? <==>
      a.runOnce(sa, input).NotMatched? && b.runOnce(sb, a.runOnce(sa, input).input).Ok?
    ensures r.Ok? && r.value.Second? ==> r.value.second == b.runOnce(sb, a.runOnce(sa, input).input).value
    ensures r.NotMatched? <==>
      a.runOnce(sa, input).NotMatched? && b.runOnce(sb, a.runOnce(sa, input).input).NotMatched?
    ensures r.NotMatched? ==> r.input == b.runOnce(sb, a.runOnce(sa, input).input).input
    ensures r.Failed? ==>
      r.reason == (if a.runOnce(sa, input).Failed? then a.runOnce(sa, input).reason
                   else b.runOnce(sb, a.runOnce(sa, input).input).reason)
  {
    match a.runOnce(sa, input)
    case Ok(o) => Ok(First(o))
    case NotMatched(rejected) => TagSecond(b.runOnce(sb, rejected))
    case Failed(e) => Failed(e)
  }

  /** The first pipeline's success is the chain's, tagged `First`. */
  lemma FirstAccepts<SA, OA, SB, OB>(a: Asset<SA, OA>, b: Asset<SB, OB>, sa: SA, sb: SB, input: AssetInput)
    requires a.runOnce(sa, input).Ok?
    ensures RunOnceChain(a, b, sa, sb, input) == Ok(First(a.runOnce(sa, input).value))
  {
  }

  /** After "not mine", the chain's outcome is the second pipeline's on the handed-back input. */
  lemma FallsBackOnNotMatched<SA, OA, SB, OB>(a: Asset<SA, OA>, b: Asset<SB, OB>, sa: SA, sb: SB, input: AssetInput)
    requires a.runOnce(sa, input).NotMatched?
    ensures RunOnceChain(a, b, sa, sb, input) == TagSecond(b.runOnce(sb, a.runOnce(sa, input).input))
  {
  }

  /** A genuine failure of the first pipeline is the chain's, verbatim. */
  lemma FailurePropagates<SA, OA, SB, OB>(a: Asset<SA, OA>, b: Asset<SB, OB>, sa: SA, sb: SB, input: AssetInput)
    requires a.runOnce(sa, input).Failed?
    ensures RunOnceChain(a, b, sa, sb, input) == Failed(a.runOnce(sa, input).reason)
  {
  }

  /** Unless the first pipeline says "not mine", the second one is never consulted. */
  lemma SecondNotConsulted<SA, OA, SB, OB>(a: Asset<SA, OA>, b1: Asset<SB, OB>, b2: Asset<SB, OB>,
                                            sa: SA, sb1: SB, sb2: SB, input: AssetInput)
    requires !a.runOnce(sa, input).NotMatched?
    ensures RunOnceChain(a, b1, sa, sb1, input) == RunOnceChain(a, b2, sa, sb2, input)
  {
  }

  /** Two pipelines that both follow the rejection protocol and both decline: the original input comes back. */
  lemma BothDecline<SA(!new), OA, SB(!new), OB>(a: Asset<SA, OA>, b: Asset<SB, OB>, sa: SA, sb: SB, input: AssetInput)
    requires ReturnsRejected(a) && ReturnsRejected(b)
    requires a.runOnce(sa, input).NotMatched? && b.runOnce(sb, input).NotMatched?
    ensures RunOnceChain(a, b, sa, sb, input) == NotMatched(input)
  {
  }

  /**
   * `try_push_input` of a chain, on state values: the first pipeline's state is
   * whatever its own claim left; the second's changes only when the first said
   * "not mine" and the second was offered the handed-back input.
   */
  function TryPushChain<SA, OA, SB, OB>(a: Asset<SA, OA>, b: Asset<SB, OB>, sa: SA, sb: SB, input: AssetInput)
    : (r: ((SA, SB), Outcome<()>))
    ensures r.0.0 == a.tryPushInput(sa, input).0
    ensures !a.tryPushInput(sa, input).1.NotMatched? ==> r.0.1 == sb
    ensures a.tryPushInput(sa, input).1.Ok? ==> r.1 == Ok(())
    ensures a.tryPushInput(sa, input).1.Failed? ==> r.1 == a.tryPushInput(sa, input).1
    ensures a.tryPushInput(sa, input).1.NotMatched? ==>
      (r.0.1, r.1) == b.tryPushInput(sb, a.tryPushInput(sa, input).1.input)
  {
    var (sa', ra) := a.tryPushInput(sa, input);
    match ra
    case Ok(_) => ((sa', sb), Ok(()))
    case NotMatched(rejected) =>
      var (sb', rb) := b.tryPushInput(sb, rejected);
      ((sa', sb'), rb)
    case Failed(e) => ((sa', sb), Failed(e))
  }

  /**
   * `stream::select`: at each step `ready(step)` says whether the first stream
   * has its next item ready; once one stream is exhausted the other is drained.
   */
  function Merge<T>(xs: seq<T>, ys: seq<T>, ready: nat -> bool, step: nat): (r: seq<T>)
    ensures |r| == |xs| + |ys|
    decreases |xs| + |ys|
  {
    if xs == [] then ys
    else if ys == [] then xs
    else if ready(step) then [xs[0]] + Merge(xs[1..], ys, ready, step + 1)
    else [ys[0]] + Merge(xs, ys[1..], ready, step + 1)
  }

  /** One step of the merge that takes from the first stream. */
  lemma MergeTakesFirst<T>(xs: seq<T>, ys: seq<T>, ready: nat -> bool, step: nat)
    requires xs != [] && (ys == [] || ready(step))
    ensures Merge(xs, ys, ready, step) == [xs[0]] + Merge(xs[1..], ys, ready, step + 1)
  {
    if ys == [] {
      assert xs == [xs[0]] + xs[1..];
    }
  }

  /** One step of the merge that takes from the second stream. */
  lemma MergeTakesSecond<T>(xs: seq<T>, ys: seq<T>, ready: nat -> bool, step: nat)
    requires ys != [] && (xs == [] || !ready(step))
    ensures Merge(xs, ys, ready, step) == [ys[0]] + Merge(xs, ys[1..], ready, step + 1)
  {
    if xs == [] {
      assert ys == [ys[0]] + ys[1..];
    }
  }

  /**
   * `stream::select` itself: repeatedly yield the next item of whichever stream
   * is ready, until both are exhausted.
   */
  method Select<T>(xs: seq<T>, ys: seq<T>, ready: nat -> bool) returns (rs: seq<T>)
    ensures rs == Merge(xs, ys, ready, 0)
  {
    var i, j := 0, 0;
    rs := [];
    while i < |xs| || j < |ys|
      invariant i <= |xs| && j <= |ys|
      invariant Emitted(rs, xs, ys, ready, i, j)
      decreases |xs| - i + |ys| - j
    {
      if j == |ys| || (i < |xs| && ready(i + j)) {
        SelectTakesFirst(rs, xs, ys, ready, i, j);
        rs := rs + [xs[i]];
        i := i + 1;
      } else {
        SelectTakesSecond(rs, xs, ys, ready, i, j);
        rs := rs + [ys[j]];
        j := j + 1;
      }
    }
    assert Merge(xs[i..], ys[j..], ready, i + j) == [];
    assert rs + [] == rs;
  }

  /**
   * The loop invariant of `Select`: `rs`, the items yielded after taking `i`
   * from the first stream and `j` from the second, followed by the merge of
   * what is left, is the whole merge.
   */
  ghost predicate Emitted<T>(rs: seq<T>, xs: seq<T>, ys: seq<T>, ready: nat -> bool, i: nat, j: nat)
    requires i <= |xs| && j <= |ys|
  {
    rs + Merge(xs[i..], ys[j..], ready, i + j) == Merge(xs, ys, ready, 0)
  }

  /** The loop step of `Select` that yields from the first stream. */
  lemma SelectTakesFirst<T>(rs: seq<T>, xs: seq<T>, ys: seq<T>, ready: nat -> bool, i: nat, j: nat)
    requires i < |xs| && j <= |ys| && (j == |ys| || ready(i + j))
    requires Emitted(rs, xs, ys, ready, i, j)
    ensures Emitted(rs + [xs[i]], xs, ys, ready, i + 1, j)
  {
    var rest := Merge(xs[i + 1..], ys[j..], ready, i + j + 1);
    MergeTakesFirst(xs[i..], ys[j..], ready, i + j);
    assert xs[i..][1..] == xs[i + 1..];
    assert Merge(xs[i..], ys[j..], ready, i + j) == [xs[i]] + rest;
    assert rs + ([xs[i]] + rest) == (rs + [xs[i]]) + rest;
  }

  /** The loop step of `Select` that yields from the second stream. */
  lemma SelectTakesSecond<T>(rs: seq<T>, xs: seq<T>, ys: seq<T>, ready: nat -> bool, i: nat, j: nat)
    requires i <= |xs| && j < |ys| && (i == |xs| || !ready(i + j))
    requires Emitted(rs, xs, ys, ready, i, j)
    ensures Emitted(rs + [ys[j]], xs, ys, ready, i, j + 1)
  {
    var rest := Merge(xs[i..], ys[j + 1..], ready, i + j + 1);
    MergeTakesSecond(xs[i..], ys[j..], ready, i + j);
    assert ys[j..][1..] == ys[j + 1..];
    assert Merge(xs[i..], ys[j..], ready, i + j) == [ys[j]] + rest;
    assert rs + ([ys[j]] + rest) == (rs + [ys[j]]) + rest;
  }

  /** Which stream each item of `Merge(xs, ys, ready, step)` came from (`true`: the first). */
  function Origins(n: nat, m: nat, ready: nat -> bool, step: nat): (o: seq<bool>)
    ensures |o| == n + m
    decreases n + m
  {
    if n == 0 then seq(m, _ => false)
    else if m == 0 then seq(n, _ => true)
    else if ready(step) then [true] + Origins(n - 1, m, ready, step + 1)
    else [false] + Origins(n, m - 1, ready, step + 1)
  }

  /** The items of `rs` whose origin is `side`, in order. */
  function Pick<T>(rs: seq<T>, origins: seq<bool>, side: bool): seq<T>
    requires |origins| == |rs|
    decreases |rs|
  {
    if rs == [] then []
    else (if origins[0] == side then [rs[0]] else []) + Pick(rs[1..], origins[1..], side)
  }

  /** Picking from a stream that supplied everything gives it all back; the other side gets nothing. */
  lemma {:induction false} PickAll<T>(rs: seq<T>, side: bool)
    ensures Pick(rs, seq(|rs|, _ => side), side) == rs
    ensures Pick(rs, seq(|rs|, _ => side), !side) == []
    decreases |rs|
  {
    if rs != [] {
      assert seq(|rs|, _ => side)[1..] == seq(|rs[1..]|, _ => side);
      PickAll(rs[1..], side);
    }
  }

  /**
   * The merge keeps each stream's own order: picking the items that came from
   * the first stream gives back exactly that stream, and likewise the second.
   */
  lemma {:induction false} MergeKeepsEachOrder<T>(xs: seq<T>, ys: seq<T>, ready: nat -> bool, step: nat)
    ensures Pick(Merge(xs, ys, ready, step), Origins(|xs|, |ys|, ready, step), true) == xs
    ensures Pick(Merge(xs, ys, ready, step), Origins(|xs|, |ys|, ready, step), false) == ys
    decreases |xs| + |ys|
  {
    if xs == [] {
      PickAll(ys, false);
    } else if ys == [] {
      PickAll(xs, true);
    } else if ready(step) {
      MergeKeepsEachOrder(xs[1..], ys, ready, step + 1);
      var r := Merge(xs, ys, ready, step);
      assert r[1..] == Merge(xs[1..], ys, ready, step + 1);
      assert xs == [xs[0]] + xs[1..];
    } else {
      MergeKeepsEachOrder(xs, ys[1..], ready, step + 1);
      var r := Merge(xs, ys, ready, step);
      assert r[1..] == Merge(xs, ys[1..], ready, step + 1);
      assert ys == [ys[0]] + ys[1..];
    }
  }

  /** The merge contains exactly the items of both streams. */
  lemma {:induction false} MergeHasBoth<T>(xs: seq<T>, ys: seq<T>, ready: nat -> bool, step: nat)
    ensures multiset(Merge(xs, ys, ready, step)) == multiset(xs) + multiset(ys)
    decreases |xs| + |ys|
  {
    if xs != [] && ys != [] {
      if ready(step) {
        MergeTakesFirst(xs, ys, ready, step);
        MergeHasBoth(xs[1..], ys, ready, step + 1);
        assert xs == [xs[0]] + xs[1..];
        assert multiset(xs) == multiset([xs[0]]) + multiset(xs[1..]);
      } else {
        MergeTakesSecond(xs, ys, ready, step);
        MergeHasBoth(xs, ys[1..], ready, step + 1);
        assert ys == [ys[0]] + ys[1..];
        assert multiset(ys) == multiset([ys[0]]) + multiset(ys[1..]);
      }
    }
  }

  /** Each success in `r` is tagged `First` exactly when it came from the first stream. */
  predicate TaggedBySource<OA, OB>(r: seq<Outcome<ChainOutput<OA, OB>>>, o: seq<bool>)
    requires |o| == |r|
  {
    forall k :: 0 <= k < |r| && r[k].Ok? ==> (r[k].value.First? <==> o[k])
  }

  /** Every success from the first stream is tagged `First`, every success from the second `Second`. */
  lemma {:induction false} MergeTagsBySource<OA, OB>(xs: seq<Outcome<OA>>, ys: seq<Outcome<OB>>, ready: nat -> bool, step: nat)
    ensures TaggedBySource(Merge(TagAllFirst(xs), TagAllSecond(ys), ready, step), Origins(|xs|, |ys|, ready, step))
    decreases |xs| + |ys|
  {
    var tx, ty := TagAllFirst(xs), TagAllSecond(ys);
    var r := Merge(tx, ty, ready, step);
    var o := Origins(|xs|, |ys|, ready, step);
    if xs == [] {
      assert o == seq(|ys|, _ => false);
    } else if ys == [] {
      assert o == seq(|xs|, _ => true);
    } else if ready(step) {
      MergeTagsBySource(xs[1..], ys, ready, step + 1);
      assert tx[1..] == TagAllFirst(xs[1..]);
      var r' := Merge(tx[1..], ty, ready, step + 1);
      var o' := Origins(|xs| - 1, |ys|, ready, step + 1);
      assert r == [tx[0]] + r' && o == [true] + o';
      assert TaggedBySource(r', o');
      forall k | 0 < k < |r| && r[k].Ok? ensures r[k].value.First? <==> o[k] {
        assert r[k] == r'[k - 1] && o[k] == o'[k - 1];
        assert r'[k - 1].Ok?;
      }
    } else {
      MergeTagsBySource(xs, ys[1..], ready, step + 1);
      assert ty[1..] == TagAllSecond(ys[1..]);
      var r' := Merge(tx, ty[1..], ready, step + 1);
      var o' := Origins(|xs|, |ys| - 1, ready, step + 1);
      assert r == [ty[0]] + r' && o == [false] + o';
      assert TaggedBySource(r', o');
      forall k | 0 < k < |r| && r[k].Ok? ensures r[k].value.First? <==> o[k] {
        assert r[k] == r'[k - 1] && o[k] == o'[k - 1];
        assert r'[k - 1].Ok?;
      }
    }
  }

  /** `ChainOutput::finalize` on element sequences: delegate to the pipeline that produced the output. */
  function FinalizeChain<SA, OA, SB, OB>(a: Asset<SA, OA>, b: Asset<SB, OB>, output: ChainOutput<OA, OB>, elements: seq<Element>)
    : (seq<Element>, Outcome<()>)
  {
    match output
    case First(x) => a.finalize(x, elements)
    case Second(y) => b.finalize(y, elements)
  }

  /** A chain is itself a pipeline, so chains nest (`Chain<Chain<A, B>, C>`). */
  function ChainAsset<SA, OA, SB, OB>(a: Asset<SA, OA>, b: Asset<SB, OB>, ready: nat -> bool)
    : Asset<(SA, SB), ChainOutput<OA, OB>>
  {
    Asset(
      (s: (SA, SB), i) => RunOnceChain(a, b, s.0, s.1, i),
      (s: (SA, SB), i) => TryPushChain(a, b, s.0, s.1, i),
      (s: (SA, SB)) => Merge(TagAllFirst(a.outputs(s.0)), TagAllSecond(b.outputs(s.1)), ready, 0),
      (o, els) => FinalizeChain(a, b, o, els))
  }

  /** Chaining two pipelines that follow the rejection protocol gives one that does too. */
  lemma ChainReturnsRejected<SA(!new), OA, SB(!new), OB>(a: Asset<SA, OA>, b: Asset<SB, OB>, ready: nat -> bool)
    requires ReturnsRejected(a) && ReturnsRejected(b)
    ensures ReturnsRejected(ChainAsset(a, b, ready))
  {
    var c := ChainAsset(a, b, ready);
    forall s, i | c.runOnce(s, i).NotMatched? ensures c.runOnce(s, i).input == i {
      assert a.runOnce(s.0, i).NotMatched?;
      assert b.runOnce(s.1, a.runOnce(s.0, i).input).NotMatched?;
    }
    forall s, i | c.tryPushInput(s, i).1.NotMatched?
      ensures c.tryPushInput(s, i).0 == s && c.tryPushInput(s, i).1 == NotMatched(i)
    {
      assert a.tryPushInput(s.0, i).1.NotMatched?;
    }
  }

  /** The chain: two pipelines, each a behaviour (`a`, `b`) and a state (`first`, `second`). */
  class Chain<SA, OA, SB, OB> {
    const a: Asset<SA, OA>
    const b: Asset<SB, OB>
    var first: SA
    var second: SB

    constructor (a: Asset<SA, OA>, b: Asset<SB, OB>, first: SA, second: SB)
      ensures this.a == a && this.b == b && this.first == first && this.second == second
    {
      this.a := a;
      this.b := b;
      this.first := first;
      this.second := second;
    }

    /** `run_once`: try the first pipeline, fall back to the second only on "not mine". */
    method RunOnce(input: AssetInput) returns (r: Outcome<ChainOutput<OA, OB>>)
      ensures r == RunOnceChain(a, b, first, second, input)
    {
      r := RunOnceChain(a, b, first, second, input);
    }

    /** `try_push_input`: the same fallback, updating the state of whichever pipeline is offered the input. */
    method TryPushInput(input: AssetInput) returns (r: Outcome<()>)
      modifies this
      ensures ((first, second), r) == TryPushChain(a, b, old(first), old(second), input)
      ensures !a.tryPushInput(old(first), input).1.NotMatched? ==> second == old(second)
    {
      var pushed := TryPushChain(a, b, first, second, input);
      first, second, r := pushed.0.0, pushed.0.1, pushed.1;
    }

    /** `outputs`: drain both pipelines, tagging successes by origin, through `stream::select`. */
    method Outputs(ready: nat -> bool) returns (rs: seq<Outcome<ChainOutput<OA, OB>>>)
      ensures rs == Merge(TagAllFirst(a.outputs(first)), TagAllSecond(b.outputs(second)), ready, 0)
      ensures |rs| == |a.outputs(first)| + |b.outputs(second)|
      ensures var o := Origins(|a.outputs(first)|, |b.outputs(second)|, ready, 0);
        Pick(rs, o, true) == TagAllFirst(a.outputs(first)) &&
        Pick(rs, o, false) == TagAllSecond(b.outputs(second)) &&
        TaggedBySource(rs, o)
    {
      var xs, ys := a.outputs(first), b.outputs(second);
      rs := Select(TagAllFirst(xs), TagAllSecond(ys), ready);
      MergeKeepsEachOrder(TagAllFirst(xs), TagAllSecond(ys), ready, 0);
      MergeTagsBySource(xs, ys, ready, 0);
    }
  }

  /** `ChainOutput::finalize`: delegate to the finalize of the pipeline that produced the output. */
  method Finalize<SA, OA, SB, OB>(a: Asset<SA, OA>, b: Asset<SB, OB>, output: ChainOutput<OA, OB>, dom: Document)
    returns (r: Outcome<()>)
    modifies dom
    ensures output.First? ==> (dom.elements, r) == a.finalize(output.first, old(dom.elements))
    ensures output.Second? ==> (dom.elements, r) == b.finalize(output.second, old(dom.elements))
  {
    var (elements, res) := FinalizeChain(a, b, output, dom.elements);
    dom.elements := elements;
    r := res;
  }
}

=== FILE: common.dfy ===
/** Shared helpers of the command-line front end. */
module Common {
  predicate LeadingSlash(s: string)
  {
    |s| > 0 && s[0] == '/'
  }

  predicate TrailingSlash(s: string)
  {
    |s| > 0 && s[|s| - 1] == '/'
  }

  /**
   * `parse_public_url`: make the `--public-url` value start and end with `/`,
   * adding a slash only where one is missing. It cannot fail (its error type
   * is `Infallible`), so it is a total function here.
   */
  function ParsePublicUrl(val: string): (r: string)
    ensures LeadingSlash(r) && TrailingSlash(r)
    ensures |r| == |val| + (if LeadingSlash(val) then 0 else 1) + (if TrailingSlash(val) then 0 else 1)
    ensures var at := if LeadingSlash(val) then 0 else 1; r[at..at + |val|] == val
  {
    var prefix := if !LeadingSlash(val) then "/" else "";
    var suffix := if !TrailingSlash(val) then "/" else "";
    prefix + val + suffix
  }

  /** A value that already starts and ends with `/` is left as it is. */
  lemma AlreadyFormatted(val: string)
    requires LeadingSlash(val) && TrailingSlash(val)
    ensures ParsePublicUrl(val) == val
  {
    var r := ParsePublicUrl(val);
    assert r[0..|val|] == val;
  }

  /** Normalising twice is normalising once. */
  lemma Idempotent(val: string)
    ensures ParsePublicUrl(ParsePublicUrl(val)) == ParsePublicUrl(val)
  {
    AlreadyFormatted(ParsePublicUrl(val));
  }

  /** The result is the value with at most one `/` added on each side. */
  lemma OnlySlashesAdded(val: string)
    ensures exists p, s :: p in ["", "/"] && s in ["", "/"] && ParsePublicUrl(val) == p + val + s
  {
    var r := ParsePublicUrl(val);
    var p := if LeadingSlash(val) then "" else "/";
    var s := if TrailingSlash(val) then "" else "/";
    assert r[..|p|] == p;
    assert r[|p|..|p| + |val|] == val;
    assert r[|p| + |val|..] == s;
    assert r == r[..|p|] + r[|p|..|p| + |val|] + r[|p| + |val|..];
    assert p in ["", "/"] && s in ["", "/"] && r == p + val + s;
  }

  /** The empty value becomes the root path `//`. */
  lemma EmptyIsDoubleSlash()
    ensures ParsePublicUrl("") == "//"
  {
  }
}

=== FILE: copy_dir.dfy ===
/**
 * The copy-dir pipeline: a directive `<link rel="copy-dir" href="..."
 * data-target-path="...">` copies a directory tree into the build's output
 * directory, and its element is removed from the document afterwards.
 *
 * The filesystem is an oracle (`Fs`): canonicalising a path and copying a tree
 * may fail, and nothing else about them is assumed.
 */
module CopyDirPipeline {
  import opened Wrappers
  import opened Paths
  import opened Assets

  const TYPE_COPY_DIR: string := "copy-dir"
  const ATTR_REL: string := "rel"
  const ATTR_HREF: string := "href"
  const ATTR_TARGET_PATH: string := "data-target-path"

  /** The pipeline's own, validated view of a directive. */
  datatype Input = Input(assetInput: AssetInput, path: Path, targetPath: Option<Path>)

  /** The output of one copy: the id of the directive element to remove. */
  datatype CopyDirOutput = CopyDirOutput(id: nat)

  /** What a successful run hands to the recursive copy. */
  datatype CopyJob = CopyJob(source: Path, dest: Path)

  /** The filesystem: `fs::canonicalize` and `copy_dir_recursive`, both allowed to fail. */
  datatype Fs = Fs(canonicalize: Path -> Option<Path>, copyDirRecursive: (Path, Path) -> Option<ErrorReason>)

  predicate IsCopyDir(value: AssetInput)
  {
    ATTR_REL in value.attrs && value.attrs[ATTR_REL] == TYPE_COPY_DIR
  }

  /** The target path attribute, read verbatim, if present. */
  function TargetPathOf(value: AssetInput): Option<Path>
  {
    if ATTR_TARGET_PATH in value.attrs then Some(PathOf(value.attrs[ATTR_TARGET_PATH])) else None
  }

  /**
   * `Input::try_from`: a directive of another kind is handed back untouched;
   * a copy-dir directive without `href` is malformed; otherwise `href` is split
   * on `/` into a fresh path, which (never being absolute) is resolved under
   * the manifest directory.
   */
  function TryFrom(value: AssetInput): (r: Outcome<Input>)
    ensures r.NotMatched? <==> !IsCopyDir(value)
    ensures r.NotMatched? ==> r.input == value
    ensures r.Failed? <==> IsCopyDir(value) && ATTR_HREF !in value.attrs
    ensures r.Failed? ==> r.reason == PipelineLinkHrefNotFound(TYPE_COPY_DIR)
    ensures r.Ok? ==> r.value.assetInput == value
    ensures r.Ok? ==> r.value.path.absolute == value.manifestDir.absolute
    ensures r.Ok? ==> r.value.path.comps == value.manifestDir.comps + Normal(Split(value.attrs[ATTR_HREF], '/'))
    ensures r.Ok? ==> r.value.targetPath == TargetPathOf(value)
  {
    if !IsCopyDir(value) then NotMatched(value)
    else if ATTR_HREF !in value.attrs then Failed(PipelineLinkHrefNotFound(TYPE_COPY_DIR))
    else
      var parts := Split(value.attrs[ATTR_HREF], '/');
      var built := Extend(Path(false, []), parts);
      BuiltFromSegmentsIsRelative(value.attrs[ATTR_HREF]);
      var path := if !built.absolute then Join(value.manifestDir, built) else built;
      Ok(Input(value, path, TargetPathOf(value)))
  }

  /** An `href` that starts with `/` still lands under the manifest directory. */
  lemma RootedHrefResolvedUnderManifestDir(value: AssetInput)
    requires IsCopyDir(value) && ATTR_HREF in value.attrs
    requires |value.attrs[ATTR_HREF]| > 0 && value.attrs[ATTR_HREF][0] == '/'
    ensures TryFrom(value).Ok?
    ensures StartsWith(TryFrom(value).value.path, value.manifestDir)
  {
    var path := TryFrom(value).value.path;
    assert path.comps[..|value.manifestDir.comps|] == value.manifestDir.comps;
  }

  /** The destination name: the target path if given, else the source directory's name. */
  function OutRelPath(targetPath: Option<Path>, dirName: string): Path
  {
    if targetPath.Some? then targetPath.value else Path(false, [dirName])
  }

  /**
   * The checks `run_with_input` makes before copying anything: the source must
   * canonicalise, the canonical path must have a final segment, and the
   * destination must pass the component-wise prefix check against the output
   * directory.
   */
  function PlanCopy(outputDir: Path, canonicalize: Path -> Option<Path>, input: Input): (r: Outcome<CopyJob>)
    ensures !r.NotMatched?
    ensures canonicalize(input.path).None? <==> r == Failed(FsNotExist(input.path))
    ensures canonicalize(input.path).Some? && FileName(canonicalize(input.path).value).None? ==>
      r == Failed(PathNoFileStem(canonicalize(input.path).value))
    ensures r.Ok? ==> canonicalize(input.path) == Some(r.value.source) && FileName(r.value.source).Some?
    ensures r.Ok? ==> r.value.dest == Join(outputDir, OutRelPath(input.targetPath, FileName(r.value.source).value))
    ensures r.Ok? ==> StartsWith(r.value.dest, outputDir)
  {
    match canonicalize(input.path)
    case None => Failed(FsNotExist(input.path))
    case Some(canonical) =>
      match FileName(canonical)
      case None => Failed(PathNoFileStem(canonical))
      case Some(dirName) =>
        var outRel := OutRelPath(input.targetPath, dirName);
        var dirOut := Join(outputDir, outRel);
        if !StartsWith(dirOut, outputDir) then Failed(PipelineLinkDataTargetPathRelativeExpected(outRel))
        else Ok(CopyJob(canonical, dirOut))
  }

  /** Without a target path the destination is always the source's name directly under the output directory. */
  lemma {:induction false} DirNameStaysInside(outputDir: Path, canonicalize: Path -> Option<Path>, input: Input)
    requires input.targetPath.None?
    requires canonicalize(input.path).Some? && FileName(canonicalize(input.path).value).Some?
    ensures PlanCopy(outputDir, canonicalize, input).Ok?
    ensures PlanCopy(outputDir, canonicalize, input).value.dest ==
      Path(outputDir.absolute, outputDir.comps + [FileName(canonicalize(input.path).value).value])
  {
    var name := FileName(canonicalize(input.path).value).value;
    JoinStartsWith(outputDir, Path(false, [name]));
  }

  /**
   * With a target path, the prefix check rejects exactly the absolute targets
   * that do not lie under the output directory, and the error names the target.
   */
  lemma {:induction false} TargetPathCheck(outputDir: Path, canonicalize: Path -> Option<Path>, input: Input)
    requires input.targetPath.Some?
    requires canonicalize(input.path).Some? && FileName(canonicalize(input.path).value).Some?
    ensures var t := input.targetPath.value;
      PlanCopy(outputDir, canonicalize, input) ==
        if t.absolute && !StartsWith(t, outputDir)
        then Failed(PipelineLinkDataTargetPathRelativeExpected(t))
        else Ok(CopyJob(canonicalize(input.path).value, Join(outputDir, t)))
  {
    JoinStartsWith(outputDir, input.targetPath.value);
  }

  /** The target attribute `../escape` parses to a relative path whose first component is `..`. */
  lemma ParentEscapeParses()
    ensures PathOf("../escape") == Path(false, ["..", "escape"])
  {
    var parts := Split("../escape", '/');
    SplitParentEscape();
    assert Normal(["escape"]) == ["escape"];
    assert Normal(parts) == ["..", "escape"] by {
      assert parts[1..] == ["escape"];
    }
  }

  /** `"../escape".split('/')` yields `..` and `escape`. */
  lemma SplitParentEscape()
    ensures Split("../escape", '/') == ["..", "escape"]
  {
    SplitCurEscape();
    SplitLeadingChar('.', "./escape", ".", ["escape"]);
    assert ['.'] + "./escape" == "../escape" && ['.'] + "." == "..";
  }

  /** `"./escape".split('/')` yields `.` and `escape`. */
  lemma SplitCurEscape()
    ensures Split("./escape", '/') == [".", "escape"]
  {
    SplitRootedEscape();
    SplitLeadingChar('.', "/escape", "", ["escape"]);
    assert ['.'] + "/escape" == "./escape" && ['.'] + "" == ".";
  }

  /** `"/escape".split('/')` yields an empty part and `escape`. */
  lemma SplitRootedEscape()
    ensures Split("/escape", '/') == ["", "escape"]
  {
    SplitWithoutSeparator("escape", '/');
    SplitLeadingSeparator("escape");
    assert ['/'] + "escape" == "/escape";
  }

  /**
   * The prefix check does not normalise: a target `../escape` passes it, and the
   * copy is aimed at `<output dir>/../escape`, outside the output directory.
   */
  lemma ParentTargetPassesCheck(outputDir: Path, canonicalize: Path -> Option<Path>, input: Input)
    requires input.targetPath == Some(PathOf("../escape"))
    requires canonicalize(input.path).Some? && FileName(canonicalize(input.path).value).Some?
    ensures PlanCopy(outputDir, canonicalize, input).Ok?
    ensures PlanCopy(outputDir, canonicalize, input).value.dest ==
      Path(outputDir.absolute, outputDir.comps + ["..", "escape"])
  {
    ParentEscapeParses();
    TargetPathCheck(outputDir, canonicalize, input);
  }

  /**
   * `run_with_input`: plan, then copy. A successful run carries the directive's
   * id; any failure of planning or copying is reported unchanged.
   */
  function RunWithInput(outputDir: Path, fs: Fs, input: Input): (r: Outcome<CopyDirOutput>)
    ensures !r.NotMatched?
    ensures r.Ok? ==> r.value == CopyDirOutput(input.assetInput.id)
    ensures var plan := PlanCopy(outputDir, fs.canonicalize, input);
      r.Ok? <==> plan.Ok? && fs.copyDirRecursive(plan.value.source, plan.value.dest).None?
    ensures var plan := PlanCopy(outputDir, fs.canonicalize, input);
      plan.Failed? ==> r == Failed(plan.reason)
    ensures var plan := PlanCopy(outputDir, fs.canonicalize, input);
      plan.Ok? && fs.copyDirRecursive(plan.value.source, plan.value.dest).Some? ==>
        r == Failed(fs.copyDirRecursive(plan.value.source, plan.value.dest).value)
  {
    var plan := PlanCopy(outputDir, fs.canonicalize, input);
    if !plan.Ok? then plan.Cast()
    else
      match fs.copyDirRecursive(plan.value.source, plan.value.dest)
      case Some(e) => Failed(e)
      case None => Ok(CopyDirOutput(input.assetInput.id))
  }

  /** When planning fails no copy is attempted: the copy oracle cannot change the result. */
  lemma NoCopyWhenPlanFails(outputDir: Path, canonicalize: Path -> Option<Path>,
                            copy1: (Path, Path) -> Option<ErrorReason>, copy2: (Path, Path) -> Option<ErrorReason>,
                            input: Input)
    requires !PlanCopy(outputDir, canonicalize, input).Ok?
    ensures RunWithInput(outputDir, Fs(canonicalize, copy1), input) == RunWithInput(outputDir, Fs(canonicalize, copy2), input)
  {
  }

  /** `CopyDir::run_once`: convert, then run; a foreign directive comes back untouched. */
  function RunOnce(outputDir: Path, fs: Fs, input: AssetInput): (r: Outcome<CopyDirOutput>)
    ensures r.NotMatched? <==> !IsCopyDir(input)
    ensures r.NotMatched? ==> r.input == input
    ensures IsCopyDir(input) && ATTR_HREF !in input.attrs ==> r == Failed(PipelineLinkHrefNotFound(TYPE_COPY_DIR))
    ensures r.Ok? ==> r.value.id == input.id
    ensures TryFrom(input).Ok? ==> r == RunWithInput(outputDir, fs, TryFrom(input).value)
  {
    var parsed := TryFrom(input);
    if !parsed.Ok? then parsed.Cast() else RunWithInput(outputDir, fs, parsed.value)
  }

  /** `try_push_input` on the queue as a value: append the converted input, or report why not. */
  function PushInput(inputs: seq<Input>, input: AssetInput): (r: (seq<Input>, Outcome<()>))
    ensures r.1.Ok? <==> TryFrom(input).Ok?
    ensures r.1.Ok? ==> r.0 == inputs + [TryFrom(input).value]
    ensures !r.1.Ok? ==> r.0 == inputs && r.1 == TryFrom(input).Cast()
  {
    var parsed := TryFrom(input);
    if parsed.Ok? then (inputs + [parsed.value], Ok(())) else (inputs, parsed.Cast())
  }

  /** One spawned task's result: a task that did not run to completion is a task failure. */
  function TaskResult(joined: bool, run: Outcome<CopyDirOutput>): Outcome<CopyDirOutput>
  {
    if joined then run else Failed(TokioTaskFailed)
  }

  /**
   * `outputs`: one result per queued input, in queue order. `joined(k)` says
   * whether the task spawned for the k-th input ran to completion.
   */
  function Batch(outputDir: Path, fs: Fs, joined: nat -> bool, inputs: seq<Input>): (rs: seq<Outcome<CopyDirOutput>>)
    ensures |rs| == |inputs|
    ensures forall k :: 0 <= k < |rs| && rs[k].Ok? ==> rs[k].value.id == inputs[k].assetInput.id
    ensures forall k :: 0 <= k < |rs| && !joined(k) ==> rs[k] == Failed(TokioTaskFailed)
    ensures forall k :: 0 <= k < |rs| && joined(k) ==> rs[k] == RunWithInput(outputDir, fs, inputs[k])
  {
    var rs := seq(|inputs|, k requires 0 <= k < |inputs| => TaskResult(joined(k), RunWithInput(outputDir, fs, inputs[k])));
    assert forall k :: 0 <= k < |rs| ==> rs[k] == TaskResult(joined(k), RunWithInput(outputDir, fs, inputs[k]));
    rs
  }

  /** When every task completes and every copy succeeds, the ids come out in submission order. */
  lemma BatchIdsInSubmissionOrder(outputDir: Path, fs: Fs, joined: nat -> bool, inputs: seq<Input>)
    requires forall k :: 0 <= k < |inputs| ==> joined(k) && RunWithInput(outputDir, fs, inputs[k]).Ok?
    ensures var rs := Batch(outputDir, fs, joined, inputs);
      (forall k :: 0 <= k < |rs| ==> rs[k].Ok?) &&
      seq(|rs|, k requires 0 <= k < |rs| && rs[k].Ok? => rs[k].value.id) ==
        seq(|inputs|, k requires 0 <= k < |inputs| => inputs[k].assetInput.id)
  {
  }

  /** The document without the elements carrying the given trunk id, in their original order. */
  function RemoveTrunkId(elements: seq<Element>, id: nat): (r: seq<Element>)
    ensures |r| <= |elements|
    ensures forall e {:trigger e in r} :: e in r <==> e in elements && e.trunkId != Some(id)
    decreases |elements|
  {
    if elements == [] then []
    else (if elements[0].trunkId == Some(id) then [] else [elements[0]]) + RemoveTrunkId(elements[1..], id)
  }

  /** Removal works element by element: it distributes over concatenation, so order is kept. */
  lemma {:induction false} RemoveTrunkIdAppend(xs: seq<Element>, ys: seq<Element>, id: nat)
    ensures RemoveTrunkId(xs + ys, id) == RemoveTrunkId(xs, id) + RemoveTrunkId(ys, id)
    decreases |xs|
  {
    if xs == [] {
      assert xs + ys == ys;
    } else {
      var x, rest := xs[0], xs[1..];
      assert xs == [x] + rest;
      assert xs + ys == [x] + (rest + ys);
      RemoveTrunkIdCons(x, rest, id);
      RemoveTrunkIdCons(x, rest + ys, id);
      RemoveTrunkIdAppend(rest, ys, id);
    }
  }

  /** Removing from `[x] + rest` decides `x` first, then removes from `rest`. */
  lemma RemoveTrunkIdCons(x: Element, rest: seq<Element>, id: nat)
    ensures RemoveTrunkId([x] + rest, id) == (if x.trunkId == Some(id) then [] else [x]) + RemoveTrunkId(rest, id)
  {
    assert ([x] + rest)[0] == x && ([x] + rest)[1..] == rest;
  }

  /** Every other element keeps its number of occurrences. */
  lemma {:induction false} RemoveTrunkIdKeepsOthers(elements: seq<Element>, id: nat, e: Element)
    requires e.trunkId != Some(id)
    ensures multiset(RemoveTrunkId(elements, id))[e] == multiset(elements)[e]
    decreases |elements|
  {
    if elements != [] {
      RemoveTrunkIdKeepsOthers(elements[1..], id, e);
      assert elements == [elements[0]] + elements[1..];
    }
  }

  /** `finalize` of a copy-dir output: delete the directive's element(s) from the document. */
  method Finalize(output: CopyDirOutput, dom: Document) returns (r: Outcome<()>)
    modifies dom
    ensures dom.elements == RemoveTrunkId(old(dom.elements), output.id)
    ensures r == Ok(())
  {
    dom.elements := RemoveTrunkId(dom.elements, output.id);
    r := Ok(());
  }

  /**
   * The copy-dir pipeline as a value, for composition with other pipelines; it
   * follows the rejection protocol.
   */
  function CopyDirAsset(outputDir: Path, fs: Fs, joined: nat -> bool): (r: Asset<seq<Input>, CopyDirOutput>)
    ensures ReturnsRejected(r)
  {
    Asset(
      (s, i) => RunOnce(outputDir, fs, i),
      (s, i) => PushInput(s, i),
      s => Batch(outputDir, fs, joined, s),
      (o: CopyDirOutput, els) => (RemoveTrunkId(els, o.id), Ok(())))
  }

  /** The copy-dir pipeline: the output directory it writes under, and its queue of validated inputs. */
  class CopyDir {
    const outputDir: Path
    var inputs: seq<Input>

    /** `CopyDir::new`: nothing queued yet. */
    constructor (outputDir: Path)
      ensures this.outputDir == outputDir
      ensures inputs == []
    {
      this.outputDir := outputDir;
      inputs := [];
    }

    /** `try_push_input`: queue the converted input at the end, or leave the queue alone and say why. */
    method TryPushInput(input: AssetInput) returns (r: Outcome<()>)
      modifies this
      ensures r.Ok? <==> TryFrom(input).Ok?
      ensures r.Ok? ==> inputs == old(inputs) + [TryFrom(input).value]
      ensures !r.Ok? ==> inputs == old(inputs) && r == TryFrom(input).Cast()
      ensures (inputs, r) == PushInput(old(inputs), input)
    {
      var pushed := PushInput(inputs, input);
      inputs, r := pushed.0, pushed.1;
    }

    /** `outputs`: run every queued input in turn and collect the results in queue order. */
    method Outputs(fs: Fs, joined: nat -> bool) returns (rs: seq<Outcome<CopyDirOutput>>)
      ensures rs == Batch(outputDir, fs, joined, inputs)
    {
      rs := [];
      for k := 0 to |inputs|
        invariant |rs| == k
        invariant forall m :: 0 <= m < k ==> rs[m] == TaskResult(joined(m), RunWithInput(outputDir, fs, inputs[m]))
      {
        var run := RunWithInput(outputDir, fs, inputs[k]);
        rs := rs + [TaskResult(joined(k), run)];
      }
    }
  }
}

=== FILE: paths.dfy ===
/**
 * Filesystem paths as Rust's `std::path` sees them on Unix.
 *
 * A `Path` is what `Path::components` yields: whether the path has a root
 * directory, then its components. Empty parts (from `a//b` or a trailing `/`)
 * and `.` parts are dropped, `..` parts are kept: nothing here normalises `..`
 * away, because the standard library does not either.
 */
module Paths {
  import opened Wrappers

  datatype Path = Path(absolute: bool, comps: seq<string>)

  /** `str::split(sep)`: the maximal runs between separators, always at least one. */
  function Split(s: string, sep: char): (parts: seq<string>)
    ensures |parts| >= 1
    ensures forall k :: 0 <= k < |parts| ==> sep !in parts[k]
    decreases |s|
  {
    if |s| == 0 then [""]
    else
      var rest := Split(s[1..], sep);
      if s[0] == sep then [""] + rest
      else [[s[0]] + rest[0]] + rest[1..]
  }

  /** Glues parts back together with the separator between neighbours. */
  function JoinWith(parts: seq<string>, sep: char): string
    requires |parts| >= 1
    decreases |parts|
  {
    if |parts| == 1 then parts[0] else parts[0] + [sep] + JoinWith(parts[1..], sep)
  }

  /** Splitting loses nothing: the separators are exactly the cut points. */
  lemma {:induction false} SplitRoundTrip(s: string, sep: char)
    ensures JoinWith(Split(s, sep), sep) == s
    decreases |s|
  {
    if |s| > 0 {
      var rest := Split(s[1..], sep);
      SplitRoundTrip(s[1..], sep);
      if s[0] == sep {
        assert ([""] + rest)[1..] == rest;
        assert s == [sep] + s[1..];
      } else {
        var parts := [[s[0]] + rest[0]] + rest[1..];
        if |rest| == 1 {
          assert s == [s[0]] + s[1..];
        } else {
          assert parts[1..] == rest[1..];
          assert JoinWith(rest, sep) == rest[0] + [sep] + JoinWith(rest[1..], sep);
          assert s == [s[0]] + s[1..];
        }
      }
    }
  }

  /** A string without the separator splits into itself alone. */
  lemma {:induction false} SplitWithoutSeparator(s: string, sep: char)
    requires sep !in s
    ensures Split(s, sep) == [s]
    decreases |s|
  {
    if |s| > 0 {
      assert sep !in s[1..] by {
        forall k | 0 <= k < |s[1..]| ensures s[1..][k] != sep { assert s[1..][k] == s[k + 1]; }
      }
      SplitWithoutSeparator(s[1..], sep);
      assert [s[0]] + s[1..] == s;
    }
  }

  /** A leading `/` splits off an empty first part. */
  lemma SplitLeadingSeparator(s: string)
    ensures Split(['/'] + s, '/') == [""] + Split(s, '/')
  {
    assert (['/'] + s)[1..] == s;
  }

  /** Any other leading character joins the first part. */
  lemma SplitLeadingChar(c: char, s: string, first: string, rest: seq<string>)
    requires c != '/' && Split(s, '/') == [first] + rest
    ensures Split([c] + s, '/') == [[c] + first] + rest
  {
    assert ([c] + s)[1..] == s;
    assert ([first] + rest)[1..] == rest;
  }

  /** The components `Path::components` keeps from the parts between separators. */
  function Normal(parts: seq<string>): (comps: seq<string>)
    ensures |comps| <= |parts|
    ensures forall c :: c in comps ==> c in parts && c != "" && c != "."
    decreases |parts|
  {
    if parts == [] then []
    else (if parts[0] == "" || parts[0] == "." then [] else [parts[0]]) + Normal(parts[1..])
  }

  /** `Path::new(s)`: rooted exactly when `s` starts with `/`. */
  function PathOf(s: string): (p: Path)
    ensures p.absolute <==> |s| > 0 && s[0] == '/'
    ensures forall k :: 0 <= k < |p.comps| ==> p.comps[k] != "" && p.comps[k] != "." && '/' !in p.comps[k]
  {
    var parts := Split(s, '/');
    var comps := Normal(parts);
    assert forall k :: 0 <= k < |comps| ==> comps[k] != "" && comps[k] != "." && '/' !in comps[k] by {
      forall k | 0 <= k < |comps| ensures comps[k] != "" && comps[k] != "." && '/' !in comps[k] {
        assert comps[k] in comps;
        var j :| 0 <= j < |parts| && parts[j] == comps[k];
      }
    }
    Path(|s| > 0 && s[0] == '/', comps)
  }

  /** `Path::join` (and `PathBuf::push`): an absolute `p` replaces `base`, a relative one is appended. */
  function Join(base: Path, p: Path): Path
  {
    if p.absolute then p else Path(base.absolute, base.comps + p.comps)
  }

  /**
   * `PathBuf::extend(parts)`: push every part in turn. A rooted path stays
   * rooted, and a relative one becomes rooted only by pushing a part that
   * starts with `/`.
   */
  function Extend(p: Path, parts: seq<string>): (r: Path)
    ensures p.absolute ==> r.absolute
    ensures !p.absolute && (forall k :: 0 <= k < |parts| ==> parts[k] == [] || parts[k][0] != '/') ==> !r.absolute
    decreases |parts|
  {
    if parts == [] then p else Extend(Join(p, PathOf(parts[0])), parts[1..])
  }

  /**
   * Pushing separator-free parts never makes a path absolute: it appends their
   * non-empty, non-`.` parts. In particular an empty first part (from a leading
   * `/`) is dropped instead of turning into a root.
   */
  lemma {:induction false} ExtendWithParts(p: Path, parts: seq<string>)
    requires forall k :: 0 <= k < |parts| ==> '/' !in parts[k]
    ensures Extend(p, parts) == Path(p.absolute, p.comps + Normal(parts))
    decreases |parts|
  {
    if parts != [] {
      var head := parts[0];
      SplitWithoutSeparator(head, '/');
      assert !(|head| > 0 && head[0] == '/');
      assert PathOf(head) == Path(false, Normal([head]));
      var pushed := Join(p, PathOf(head));
      assert pushed == Path(p.absolute, p.comps + Normal([head]));
      ExtendWithParts(pushed, parts[1..]);
      assert Normal(parts) == Normal([head]) + Normal(parts[1..]) by {
        assert [head][1..] == [];
      }
      assert p.comps + Normal([head]) + Normal(parts[1..]) == p.comps + Normal(parts);
    }
  }

  /** The path built from `s.split('/')` pushed onto an empty `PathBuf` is never absolute. */
  lemma BuiltFromSegmentsIsRelative(s: string)
    ensures Extend(Path(false, []), Split(s, '/')) == Path(false, Normal(Split(s, '/')))
  {
    ExtendWithParts(Path(false, []), Split(s, '/'));
  }

  /**
   * `Path::starts_with`: the components of `base`, the root counted as one,
   * are a prefix of those of `p`; nothing is normalised. The empty path has
   * no components, so every path, rooted or not, starts with it.
   */
  predicate StartsWith(p: Path, base: Path): (b: bool)
    ensures p == base ==> b
    ensures base == Path(false, []) ==> b
    ensures b && base.absolute ==> p.absolute
    ensures b ==> |base.comps| <= |p.comps| && p.comps[..|base.comps|] == base.comps
    ensures b && !base.absolute && base.comps != [] ==> !p.absolute
    ensures base.absolute == p.absolute && |base.comps| <= |p.comps| && p.comps[..|base.comps|] == base.comps ==> b
  {
    if base.absolute then p.absolute && IsPrefix(base.comps, p.comps)
    else base.comps == [] || (!p.absolute && IsPrefix(base.comps, p.comps))
  }

  predicate IsPrefix(xs: seq<string>, ys: seq<string>)
  {
    |xs| <= |ys| && ys[..|xs|] == xs
  }

  /**
   * `base.join(p)` stays under `base` exactly when `p` is relative or `p` itself
   * already lies under `base`; no `..` in a relative `p` is ever noticed.
   */
  lemma JoinStartsWith(base: Path, p: Path)
    ensures StartsWith(Join(base, p), base) <==> !p.absolute || StartsWith(p, base)
  {
    if !p.absolute {
      assert (base.comps + p.comps)[..|base.comps|] == base.comps;
    }
  }

  /** `Path::file_name`: the last component, unless there is none or it is `..`. */
  function FileName(p: Path): Option<string>
  {
    if |p.comps| > 0 && p.comps[|p.comps| - 1] != ".." then Some(p.comps[|p.comps| - 1]) else None
  }
}

=== FILE: wrappers.dfy ===
/** The optional value used throughout the model, as Rust's `Option`. */
module Wrappers {
  datatype Option<T> = None | Some(value: T)
}
